=== FILE: README.md ===
# Oscillators of BAE_Gen, in Dafny

This project models the oscillators of the BAE_Gen audio-generator crate
over Dafny's `real` type. The crate's `f64`/`f32` values and its `Math`,
`Sample` and `FastMath` wrappers all become `real`.

- `generator.dfy`: the three capabilities of `src/lib.rs`. `FreqMod` is
  the predicate `FreqModLaws` over an oscillator's `New`, `SetFrequency`
  and `GetFrequency`, and each oscillator's `IsFreqMod` lemma proves that
  its three functions meet it. `Generator` is `process`:
  one sample plus the next state, the `Step` datatype. `BlockGenerator` is
  `process_block`. `Render` iterates a step function n times, and each
  oscillator's `ProcessBlock` is proved equal to it. The rest of the module
  holds generic lemmas about `Render`.
- `sine.dfy`: the wavetable sine oscillator. It reads at a fractional index
  `ind` into a table of `WAVETABLE_SIZE` = 2^20 entries, interpolates
  linearly between entries `k` and `k1`, and wraps the index by
  `WAVETABLE_SIZE - 1`.
- `sawtooth.dfy`: a ramp accumulator that drops by 2 once it reaches 1.
- `square.dfy`: a sample counter compared against the half-period `inv`.
- `triangle.dfy`: an accumulator reflected at ±1. Its rate changes sign at
  every reflection.
- `zero.dfy`: the silent generator.

Every oscillator is an immutable datatype with pure step functions. Each
Rust `&mut self` method becomes a function from the old state to the new
one. `process_block` becomes a method that takes the caller's buffer and
returns it with every element overwritten, plus the final state. The
source's `process_block` repeats the body of `process` inline instead of
calling it, so each `ProcessBlock` does the same, and its loop invariant
proves that it writes exactly the samples of repeated `Process` calls and
ends in the same state.

The sine table is injected as a parameter of `Sine.New` and is carried in
the state. The source keeps it in a process-wide lazily built static. Only
two facts about it are modelled: its length, and entries in [-1, 1]
(`IsWavetable`).

Where the source reads past the end of the table, it panics. The model
turns that into preconditions. `Sine.Process` requires `ind < WAVETABLE_SIZE`.
`Sine.ProcessBlock` requires exactly that each of the buffer's steps can
run (`RunsFor`). `Sine.RenderInRange` shows this holds for any buffer
length from a valid state.

The source's divisions by the sample rate, or for the square wave by the
frequency, are not checked there. The model requires those divisors to be
non-zero, because reals have no infinity or NaN.

Where the crate's own documentation and its code differ, the model
follows the code. The doc comment of `FreqMod::get_frequency`
(src/lib.rs:48) promises "the current frequency of the given object", but
the triangle's `get_frequency` is not the frequency last set. It changes sign at every reflection, because `process` negates
`irate` (`Triangle.Process`, `Triangle.RateMagnitudeKept`).

## Model

| member | source | states |
|---|---|---|
| Generator.Render | src/lib.rs:52-55 | each `process` call yields exactly one sample, so n calls yield n samples |
| Generator.RenderStep | src/lib.rs:58-62 | filling one more buffer slot appends exactly the next `process` sample and advances the final state by one step |
| Generator.RenderSplit | src/lib.rs:58-62 | two `process_block` calls on consecutive buffers produce the same samples and final state as one call on the joined buffer |
| Sine.IsFreqMod | src/sine.rs:30-47 | for any table, at every non-zero sample rate: a new sine reports the f it was built with, `set_frequency(f)` makes it report f, setting the reported frequency changes nothing, and a second `set_frequency` overrides the first |
| Sine.New | src/sine.rs:31-38 | a new sine starts at read index 0 and keeps the sample rate and table; `get_frequency` then reports exactly the f it was built with |
| Sine.SetFrequency | src/sine.rs:40-42 | retuning changes only the increment (index, sample rate and table are untouched), and `get_frequency` then reports the new f |
| Sine.GetThenSet | src/sine.rs:40-46 | passing the reported frequency back to `set_frequency` reproduces the increment exactly |
| Sine.NewValid | src/sine.rs:31-38 | a frequency in [0, sampleRate/2] gives an increment in [0, WAVETABLE_SIZE - 1], so the index-range invariant holds from the start |
| Sine.SetFrequencyValid | src/sine.rs:40-42 | retuning a valid sine to a frequency in [0, sampleRate/2] keeps it valid, so the index bound holds across retunes |
| Sine.Lower | src/sine.rs:51-57 | `k` is a valid table index; for a non-negative index k <= ind < k + 1, and a negative index saturates to k = 0 |
| Sine.Upper | src/sine.rs:52-56 | `k1` is a valid table index in both branches, and 0 for a negative index |
| Sine.UpperIsNext | src/sine.rs:52-56 | inside the wrap span `k1 = k + 1`, and `k1` falls back to 0 exactly when ind >= WAVETABLE_SIZE - 1, which the index invariant rules out |
| Sine.InterpolateInRange | src/sine.rs:51-60 | for a non-negative index, the weight `ind - k` lies in [0, 1), so the output is a convex blend of two entries; for a negative index both points are entry 0 and the output is exactly entry 0; either way the output is in [-1, 1] when the table is |
| Sine.Process | src/sine.rs:50-69 | only the index moves; it advances by the increment, minus WAVETABLE_SIZE - 1 exactly when the sum reaches WAVETABLE_SIZE - 1; that one subtraction keeps it in [0, WAVETABLE_SIZE - 1) when the increment is in [0, WAVETABLE_SIZE - 1]; on every state it can run on, the output is in [-1, 1] when the table is; a negative index (after a negative frequency) emits entry 0; at a non-negative whole index the output is exactly that table entry |
| Sine.Clone | src/sine.rs:95-103 | a clone resets the index to 0 and keeps the increment, sample rate and table, so it has the same frequency and its first sample is table[0] |
| Sine.CloneIsFresh | src/sine.rs:95-103 | a clone equals a new sine at the source's frequency, sample rate and table |
| Sine.RenderInRange | src/sine.rs:50-69 | from a valid state any number of `process` calls stay inside the table, keep the index invariant, and emit only samples in [-1, 1] |
| Sine.ProcessBlock | src/sine.rs:73-92 | the buffer keeps its length and receives exactly the samples of repeated `process` calls, which also give the same final state; it can run exactly when those calls can |
| Sawtooth.IsFreqMod | src/sawtooth.rs:16-32 | at every non-zero sample rate: a new sawtooth reports the f it was built with, `set_frequency(f)` makes it report f, setting the reported frequency changes nothing, and a second `set_frequency` overrides the first |
| Sawtooth.New | src/sawtooth.rs:17-23 | a new sawtooth keeps the sample rate, `get_frequency` reports exactly f, and its first sample is 0 |
| Sawtooth.SetFrequency | src/sawtooth.rs:25-27 | retuning changes only `irate`, and `get_frequency` then reports the new f |
| Sawtooth.GetThenSet | src/sawtooth.rs:25-31 | passing the reported frequency back to `set_frequency` reproduces `irate` exactly |
| Sawtooth.NewValid | src/sawtooth.rs:17-23 | a frequency in [0, sampleRate] gives irate in [0, 2] with the accumulator in range |
| Sawtooth.SetFrequencyValid | src/sawtooth.rs:25-27 | retuning a valid sawtooth to a frequency in [0, sampleRate] keeps it valid, so the [-1, 1) range holds across retunes |
| Sawtooth.Process | src/sawtooth.rs:35-45 | the output is the accumulator before the advance; only the accumulator changes; consecutive values differ by irate without a wrap and by irate - 2 with one; with irate in [0, 2] the range [-1, 1) is kept, and the output lies in it |
| Sawtooth.Clone | src/sawtooth.rs:61-68 | a clone resets the accumulator to 0, keeps sample rate and `irate`, so it has the same frequency and its first sample is 0 |
| Sawtooth.CloneIsFresh | src/sawtooth.rs:61-68 | a clone equals a new sawtooth at the source's frequency and sample rate |
| Sawtooth.RenderInRange | src/sawtooth.rs:35-45 | from a valid state every sample of every run lies in [-1, 1) and the state stays valid |
| Sawtooth.Ramp | src/sawtooth.rs:35-45 | starting from 0 with a non-negative rate, the j-th sample is irate added j times, that is j * irate, and the accumulator ends at n * irate, while n * irate < 1 (the rising part of the closed-form sawtooth) |
| Sawtooth.ProcessBlock | src/sawtooth.rs:49-58 | the buffer keeps its length and receives exactly the samples of repeated `process` calls, which also give the same final state |
| Square.IsFreqMod | src/square.rs:14-30 | at every non-zero sample rate: a new square wave reports the f it was built with, `set_frequency(f)` makes it report f, setting the reported frequency changes nothing, and a second `set_frequency` overrides the first |
| Square.New | src/square.rs:15-21 | a new square wave starts its counter at 0 and keeps the sample rate; `get_frequency` reports exactly f; its first sample is +1 |
| Square.SetFrequency | src/square.rs:23-25 | retuning changes only `inv`, and `get_frequency` then reports the new f |
| Square.GetThenSet | src/square.rs:23-29 | passing the reported frequency back to `set_frequency` reproduces `inv` exactly |
| Square.NewValid | src/square.rs:15-21 | a frequency in (0, sampleRate] gives inv >= 1/2 with the counter in range |
| Square.Process | src/square.rs:33-47 | every output is +1 or -1; it is -1 exactly when inv <= ind < 2 * inv, judged before the wrap, so the step on which ind >= 2 * inv outputs +1; only the counter changes; with inv >= 1/2 the range 0 <= ind < 2 * inv + 1 is kept |
| Square.Clone | src/square.rs:68-75 | a clone resets the counter to 0, keeps sample rate and `inv`, so it has the same frequency and its first sample is +1 |
| Square.CloneIsFresh | src/square.rs:68-75 | a clone equals a new square wave at the source's frequency and sample rate |
| Square.RenderInRange | src/square.rs:33-47 | from a valid state every sample of every run is +1 or -1 and the state stays valid |
| Square.FirstPeriod | src/square.rs:33-47 | from a counter at 0, while n <= 2 * inv the j-th sample is +1 for j < inv and -1 for j >= inv, the first period of the closed-form square wave |
| Square.CatchUp | src/square.rs:33-47 | when the counter lies at or past a full period, each step takes back only 2 * inv - 1, and every sample is +1 until the counter is back inside the period |
| Square.RetuneLeavesValid | src/square.rs:15-47 | a fresh 440 Hz square wave at 48 kHz (half period 48000 / 880, about 54.5 samples) is still valid after 100 samples, but retuning it to 4800 Hz then gives counter 100 against a half period of 5, outside `Valid` |
| Square.RetuneOvershoot | src/square.rs:33-47 | from that retuned state (counter 100, half period 5) the wave emits 15 samples of +1 before its first -1, where a high half-period at 4800 Hz is 5 samples |
| Square.ProcessBlock | src/square.rs:51-65 | the buffer keeps its length and receives exactly the samples of repeated `process` calls, which also give the same final state |
| Triangle.IsFreqMod | src/triangle.rs:14-30 | at every non-zero sample rate: a new triangle reports the f it was built with, `set_frequency(f)` makes it report f, setting the reported frequency changes nothing, and a second `set_frequency` overrides the first |
| Triangle.New | src/triangle.rs:15-21 | a new triangle keeps the sample rate, `get_frequency` reports exactly f, and its first sample is 0 |
| Triangle.SetFrequency | src/triangle.rs:23-25 | retuning overwrites `irate` with the sign of f, whatever the current direction, leaves the accumulator alone, and `get_frequency` then reports f |
| Triangle.GetThenSet | src/triangle.rs:23-29 | passing the reported frequency back to `set_frequency` reproduces `irate` exactly |
| Triangle.NewValid | src/triangle.rs:15-21 | a frequency in [0, sampleRate/2] gives irate in [-2, 2] with the accumulator in range |
| Triangle.SetFrequencyValid | src/triangle.rs:23-25 | retuning a valid triangle to a frequency in [-sampleRate/2, sampleRate/2] keeps it valid, so the [-1, 1] range holds across retunes |
| Triangle.Process | src/triangle.rs:33-49 | the output is the accumulator before the advance; past 1 (resp. -1) the accumulator is mirrored about that bound and the rate negated, otherwise it just advances; the reported frequency keeps its magnitude; with irate in [-2, 2] the range [-1, 1] is kept |
| Triangle.Clone | src/triangle.rs:72-79 | a clone resets the accumulator to 0, keeps sample rate and the signed `irate`, so it has the same frequency and its first sample is 0 |
| Triangle.CloneIsFresh | src/triangle.rs:72-79 | a clone equals a new triangle at the source's current signed frequency and sample rate |
| Triangle.RateMagnitudeKept | src/triangle.rs:36-46 | along any run the sample rate is unchanged and the rate is only ever negated, never resized |
| Triangle.RenderInRange | src/triangle.rs:33-49 | from a valid state every sample of every run lies in [-1, 1] and the state stays valid |
| Triangle.Rise | src/triangle.rs:33-49 | starting from 0 with a rate of either sign, the j-th sample is irate added j times, that is j * irate, and the accumulator ends at n * irate, while n * irate stays strictly between -1 and 1 (the first quarter period of the closed-form triangle, before any reflection) |
| Triangle.ProcessBlock | src/triangle.rs:53-69 | the buffer keeps its length and receives exactly the samples of repeated `process` calls, which also give the same final state |
| Zero.Process | src/zero.rs:18-21 | `process` returns 0 and leaves the generator unchanged |
| Zero.Silence | src/zero.rs:18-21 | any number of `process` calls yields only zeros and leaves the generator as it was |
| Zero.ProcessBlock | src/zero.rs:24-29 | every element of the buffer becomes 0, its length is unchanged, the generator is unchanged, and this agrees with repeated `process` |
| Zero.BlockIdempotent | src/zero.rs:24-29 | a second `process_block` over a buffer of the same length, started from the state the first one left, writes the same samples and leaves the same state; this follows from the generator being stateless (`Zero` has a single value) and would hold for any step function on it |

`Sawtooth.Ramp` and `Triangle.Rise` state the j-th sample as
`Accumulated(irate, j)`, which is irate added to 0 j times.
`Generator.AccumulatedIsProduct` proves that this equals `j * irate`.

## Left out

- Wavetable construction (src/sine.rs:11-20): the lazily built static, filled with `sin(2·π·i/WAVETABLE_SIZE)`, is left out. `sin` and one-time global initialisation have no counterpart here. The table is a parameter, constrained only by `IsWavetable`.
- Floating-point rounding, and the narrowing casts of samples to `FastMath`, are left out. The frequency round-trips are exact over reals. In `f64` they hold only within the tolerances the crate's tests allow.
- Sawtooth.New, Sawtooth.SetFrequency, Sine.New, Sine.SetFrequency, Triangle.New, Triangle.SetFrequency and Triangle.GetFrequency require a non-zero sample rate. Square.New and Square.SetFrequency require a non-zero frequency, and Square.GetFrequency a non-zero `inv`. The source divides without checking, and in `f64` a zero divisor gives an infinity or NaN, which reals cannot represent.
- Sine.ToIndex models only the lower saturation of Rust's float-to-`usize` cast (negative to 0). Indices of WAVETABLE_SIZE or more make the source panic at the table access, so `Indexable` excludes them. The saturation at `usize::MAX` is therefore never reached.
- Square.SetFrequency: no lemma says that retuning keeps `Valid`, because it does not. `set_frequency` leaves the counter where it was, so shortening the half-period can leave the counter several periods past the end, and `process` takes back only one period per step (`Square.RetuneLeavesValid`, `Square.RetuneOvershoot`, `Square.CatchUp`). The model reproduces that stretch of +1 samples as the source does. `Square.Process` still emits only ±1 from every state, but the `Valid` invariant of `Square.RenderInRange` covers only runs without such a retune.
- Sine.ProcessBlock models the in-place buffer as a sequence passed in and returned with the same length. The other oscillators' `ProcessBlock` methods do the same.
- The `FreqMod`, `Generator` and `BlockGenerator` traits are not Dafny traits. Each oscillator module provides the same members. `Generator.FreqModLaws` states the frequency contract once and `Generator.Render` the block contract once, for all of them.
- src/noise.rs is left out. It wraps a foreign random-number generator and has no stateful logic of its own.
- src/mono_wav.rs is left out. It is not compiled (it is commented out at src/lib.rs:14 and src/lib.rs:22), it reads WAV files, and it delegates to a resampler that is not part of this model.
- src/square.rs has two type quirks: line 46 returns a bare `y`, and line 53 writes through `*s.0`. The model follows the evident logic of both: the sample is the ±1 value.
- `Zero::new` and the `GetFrequency` functions are modelled but carry no contract of their own. Their behaviour is stated through the `New`, `SetFrequency`, `Clone` and `GetThenSet` contracts.
- The closed-form reference curves of tests/generators.rs (sine values, the full sawtooth and triangle formulas with `floor` and `powf`), the test timing and printing, and `seconds_to_samples` are left out. `Sawtooth.Ramp`, `Triangle.Rise` and `Square.FirstPeriod` cover the part of each curve before the first wrap or reflection.

=== FILE: generator.dfy ===
/** The capabilities every oscillator of the crate shares.

    `Generator::process` yields one sample and advances the oscillator's state;
    `BlockGenerator::process_block` fills a buffer, element by element, with the
    samples that successive `process` calls would have produced. Here an
    oscillator's `process` is a pure step function from a state to a `Step`,
    and `Render` is the n-fold iteration of such a step function: every
    oscillator's `ProcessBlock` is proved to agree with it. */
module Generator {

  /** The laws of `FreqMod`, for an oscillator whose `new`, `set_frequency`
      and `get_frequency` are `mk`, `setF` and `getF`, promised for every
      state satisfying `wellFormed` (a non-zero sample rate, for every
      oscillator of the crate):
      - a fresh oscillator reports the frequency it was built with;
      - after `set_frequency(f)` the oscillator reports f;
      - setting the reported frequency changes nothing;
      - a second `set_frequency` overrides the first completely. */
  ghost predicate FreqModLaws<S(!new)>(mk: (real, real) --> S, setF: (S, real) --> S, getF: S --> real, wellFormed: S -> bool)
  {
    (forall f: real, sr: real :: sr != 0.0 && mk.requires(f, sr) ==>
       wellFormed(mk(f, sr)) && getF.requires(mk(f, sr)) && getF(mk(f, sr)) == f)
    && (forall s: S, f: real :: wellFormed(s) && setF.requires(s, f) ==>
          wellFormed(setF(s, f)) && getF.requires(setF(s, f)) && getF(setF(s, f)) == f)
    && (forall s: S :: wellFormed(s) && getF.requires(s) ==>
          setF.requires(s, getF(s)) && setF(s, getF(s)) == s)
    && (forall s: S, f: real, g: real :: wellFormed(s) && setF.requires(s, f) && setF.requires(s, g) ==>
          setF.requires(setF(s, f), g) && setF(setF(s, f), g) == setF(s, g))
  }

  /** What one call of `process` yields: the sample and the state after it. */
  datatype Step<S> = Step(out: real, next: S)

  /** What a run of n `process` calls yields: the samples, in order, and the
      state after the last of them. */
  datatype Block<S> = Block(out: seq<real>, final: S)

  /** `process` can be called n times in a row, starting from s, without ever
      leaving its domain (for the sine oscillator, without indexing past the
      end of its wavetable). */
  ghost predicate RunsFor<S>(process: S --> Step<S>, s: S, n: nat)
    decreases n
  {
    n == 0 || (process.requires(s) && RunsFor(process, process(s).next, n - 1))
  }

  /** The samples and final state of n successive `process` calls from s:
      exactly one sample per call. */
  function Render<S>(process: S --> Step<S>, s: S, n: nat): (b: Block<S>)
    requires RunsFor(process, s, n)
    ensures |b.out| == n
    decreases n
  {
    if n == 0 then Block([], s)
    else
      var first := process(s);
      var rest := Render(process, first.next, n - 1);
      Block([first.out] + rest.out, rest.final)
  }

  /** A step function without a precondition can be run any number of times. */
  lemma {:induction false} TotalRuns<S>(process: S -> Step<S>, s: S, n: nat)
    ensures RunsFor(process, s, n)
    decreases n
  {
    if n > 0 {
      TotalRuns(process, process(s).next, n - 1);
    }
  }

  /** A run that can go n steps can also stop earlier. */
  lemma {:induction false} RunsForPrefix<S>(process: S --> Step<S>, s: S, m: nat, n: nat)
    requires m <= n
    requires RunsFor(process, s, n)
    ensures RunsFor(process, s, m)
    decreases m
  {
    if m > 0 {
      RunsForPrefix(process, process(s).next, m - 1, n - 1);
    }
  }

  /** One more `process` call appends exactly its sample to the run and moves
      the final state on by one step: the shape of a `process_block` loop. */
  lemma {:induction false} RenderStep<S>(process: S --> Step<S>, s: S, n: nat)
    requires RunsFor(process, s, n + 1)
    ensures RunsFor(process, s, n)
    ensures process.requires(Render(process, s, n).final)
    ensures Render(process, s, n + 1) ==
              Block(Render(process, s, n).out + [process(Render(process, s, n).final).out],
                    process(Render(process, s, n).final).next)
    decreases n
  {
    if n > 0 {
      var first := process(s);
      RenderStep(process, first.next, n - 1);
      var prev := Render(process, first.next, n - 1);
      var last := process(prev.final);
      assert ([first.out] + prev.out) + [last.out] == [first.out] + (prev.out + [last.out]);
    }
  }

  /** Rendering m + n samples is rendering m samples and then n more from
      where the first run stopped: two `process_block` calls on consecutive
      buffers produce what one call on the joined buffer produces. */
  lemma {:induction false} RenderSplit<S>(process: S --> Step<S>, s: S, m: nat, n: nat)
    requires RunsFor(process, s, m + n)
    ensures RunsFor(process, s, m)
    ensures RunsFor(process, Render(process, s, m).final, n)
    ensures Render(process, s, m + n) ==
              Block(Render(process, s, m).out + Render(process, Render(process, s, m).final, n).out,
                    Render(process, Render(process, s, m).final, n).final)
    decreases m
  {
    if m > 0 {
      var first := process(s);
      RenderSplit(process, first.next, m - 1, n);
      var head := Render(process, first.next, m - 1);
      var tail := Render(process, head.final, n);
      assert ([first.out] + head.out) + tail.out == [first.out] + (head.out + tail.out);
    }
  }

  /** If `process` is defined on every state satisfying `inv`, keeps `inv`,
      and emits only samples satisfying `ok`, then every run from a state
      satisfying `inv` goes on as long as wanted, ends in a state satisfying
      `inv`, and emits only samples satisfying `ok`. */
  lemma {:induction false} InvariantRender<S>(process: S --> Step<S>, inv: S -> bool, ok: real -> bool, s: S, n: nat)
    requires inv(s)
    requires forall t :: inv(t) ==> process.requires(t) && inv(process(t).next) && ok(process(t).out)
    ensures RunsFor(process, s, n)
    ensures inv(Render(process, s, n).final)
    ensures forall i :: 0 <= i < n ==> ok(Render(process, s, n).out[i])
    decreases n
  {
    if n > 0 {
      var first := process(s);
      InvariantRender(process, inv, ok, first.next, n - 1);
      var rest := Render(process, first.next, n - 1);
      var b := Render(process, s, n);
      assert b.out == [first.out] + rest.out;
      forall i | 0 <= i < n
        ensures ok(b.out[i])
      {
        if i > 0 {
          assert b.out[i] == rest.out[i - 1];
        }
      }
    }
  }

  /** `rate` added to 0 j times, the way an accumulator advanced by a
      constant rate reaches it. */
  function Accumulated(rate: real, j: nat): real
  {
    if j == 0 then 0.0 else Accumulated(rate, j - 1) + rate
  }

  /** Repeated addition of a rate is multiplication by the count. */
  lemma {:induction false} AccumulatedIsProduct(rate: real, j: nat)
    ensures Accumulated(rate, j) == (j as real) * rate
  {
    if j > 0 {
      AccumulatedIsProduct(rate, j - 1);
      var p := (j - 1) as real;
      assert (p + 1.0) * rate == p * rate + rate;
    }
  }

  /** Whatever the rate's sign, an earlier accumulated value lies between 0
      and any later one. */
  lemma {:induction false} AccumulatedBetween(rate: real, i: nat, j: nat)
    requires i <= j
    ensures 0.0 <= rate ==> 0.0 <= Accumulated(rate, i) <= Accumulated(rate, j)
    ensures rate <= 0.0 ==> Accumulated(rate, j) <= Accumulated(rate, i) <= 0.0
    decreases j
  {
    if i < j {
      AccumulatedBetween(rate, i, j - 1);
    } else if i > 0 {
      AccumulatedBetween(rate, i - 1, i - 1);
    }
  }
}

=== FILE: sawtooth.dfy ===
/** The sawtooth oscillator: an accumulator that ramps up by a fixed rate per
    sample and drops by 2 when it reaches 1, so that it sweeps [-1, 1) once
    per period. */
module Sawtooth {
  import opened Generator

  /** Oscillator state. `sampleRate` is the source's field `r`; `irate` is the
      per-sample increment 2 * f / sampleRate; `inc` is the accumulator, which
      is the next sample to be emitted. */
  datatype Sawtooth = Sawtooth(sampleRate: real, irate: real, inc: real)

  /** The range the accumulator keeps once the frequency is at most the
      sample rate (`irate` in [0, 2]). */
  predicate Valid(s: Sawtooth)
  {
    0.0 <= s.irate <= 2.0 && -1.0 <= s.inc < 1.0
  }

  /** `FreqMod::new`: a sawtooth at frequency f, starting at the middle of its
      ramp. */
  function New(f: real, sampleRate: real): (s: Sawtooth)
    requires sampleRate != 0.0
    ensures s.sampleRate == sampleRate
    ensures GetFrequency(s) == f
    ensures Process(s).out == 0.0
  {
    Sawtooth(sampleRate, 2.0 * f / sampleRate, 0.0)
  }

  /** `FreqMod::set_frequency`: retunes without touching the accumulator. */
  function SetFrequency(s: Sawtooth, f: real): (s': Sawtooth)
    requires s.sampleRate != 0.0
    ensures s' == s.(irate := s'.irate)
    ensures GetFrequency(s') == f
  {
    s.(irate := 2.0 * f / s.sampleRate)
  }

  /** `FreqMod::get_frequency`: the frequency the increment stands for. */
  function GetFrequency(s: Sawtooth): real
  {
    s.irate * s.sampleRate / 2.0
  }

  /** Feeding the reported frequency back into `set_frequency` reproduces the
      increment exactly. */
  lemma GetThenSet(s: Sawtooth)
    requires s.sampleRate != 0.0
    ensures SetFrequency(s, GetFrequency(s)) == s
  {
    assert 2.0 * (s.irate * s.sampleRate / 2.0) / s.sampleRate == s.irate;
  }

  /** `Sawtooth` meets the laws of `FreqMod` at every non-zero sample rate. */
  lemma IsFreqMod()
    ensures FreqModLaws(New, SetFrequency, GetFrequency, (s: Sawtooth) => s.sampleRate != 0.0)
  {
    forall s: Sawtooth | s.sampleRate != 0.0
      ensures SetFrequency(s, GetFrequency(s)) == s
    {
      GetThenSet(s);
    }
  }

  /** A frequency between 0 and the sample rate gives a valid oscillator. */
  lemma NewValid(f: real, sampleRate: real)
    requires 0.0 < sampleRate && 0.0 <= f <= sampleRate
    ensures Valid(New(f, sampleRate))
  {
    assert 2.0 * f / sampleRate <= 2.0 * sampleRate / sampleRate;
  }

  /** Retuning a valid sawtooth to a frequency between 0 and the sample
      rate keeps it valid, so the range of `RenderInRange` survives
      `set_frequency` mid-run. */
  lemma SetFrequencyValid(s: Sawtooth, f: real)
    requires Valid(s) && 0.0 < s.sampleRate && 0.0 <= f <= s.sampleRate
    ensures Valid(SetFrequency(s, f))
  {
    assert 2.0 * f / s.sampleRate <= 2.0 * s.sampleRate / s.sampleRate;
  }

  /** `Generator::process`: emits the accumulator as it was before the step,
      then advances it by `irate`, dropping by 2 when it reaches 1. */
  function Process(s: Sawtooth): (r: Step<Sawtooth>)
    ensures r.out == s.inc
    ensures r.next == s.(inc := r.next.inc)
    ensures s.inc + s.irate < 1.0 ==> r.next.inc - r.out == s.irate
    ensures s.inc + s.irate >= 1.0 ==> r.next.inc - r.out == s.irate - 2.0
    ensures Valid(s) ==> Valid(r.next)
    ensures Valid(s) ==> -1.0 <= r.out < 1.0
  {
    var inc := s.inc + s.irate;
    Step(s.inc, s.(inc := if inc >= 1.0 then inc - 2.0 else inc))
  }

  /** `Clone::clone`: same sample rate and increment, accumulator back at 0. */
  function Clone(s: Sawtooth): (c: Sawtooth)
    ensures c == s.(inc := 0.0)
    ensures GetFrequency(c) == GetFrequency(s)
    ensures Process(c).out == 0.0
  {
    Sawtooth(s.sampleRate, s.irate, 0.0)
  }

  /** A clone is indistinguishable from a fresh oscillator at the source's
      frequency. */
  lemma CloneIsFresh(s: Sawtooth)
    requires s.sampleRate != 0.0
    ensures Clone(s) == New(GetFrequency(s), s.sampleRate)
  {
    GetThenSet(s);
  }

  /** Every sample of every run from a valid state lies in [-1, 1). */
  lemma RenderInRange(s: Sawtooth, n: nat)
    requires Valid(s)
    ensures RunsFor(Process, s, n)
    ensures Valid(Render(Process, s, n).final)
    ensures forall i :: 0 <= i < n ==> -1.0 <= Render(Process, s, n).out[i] < 1.0
  {
    InvariantRender(Process, Valid, y => -1.0 <= y < 1.0, s, n);
  }

  /** Starting from 0 with a non-negative rate, the first n samples are the
      straight ramp 0, irate, 2 * irate, ... (see `AccumulatedIsProduct`) as
      long as n * irate stays below 1: the rising half of the closed-form
      sawtooth. */
  lemma {:induction false} Ramp(s: Sawtooth, n: nat)
    requires s.inc == 0.0 && 0.0 <= s.irate
    requires Accumulated(s.irate, n) < 1.0
    ensures RunsFor(Process, s, n)
    ensures Render(Process, s, n).final == s.(inc := Accumulated(s.irate, n))
    ensures forall j :: 0 <= j < n ==> Render(Process, s, n).out[j] == Accumulated(s.irate, j)
    decreases n
  {
    TotalRuns(Process, s, n);
    if n > 0 {
      AccumulatedBetween(s.irate, n - 1, n);
      Ramp(s, n - 1);
      RenderStep(Process, s, n - 1);
      var prev := Render(Process, s, n - 1);
      var b := Render(Process, s, n);
      assert b.out == prev.out + [Accumulated(s.irate, n - 1)];
      forall j | 0 <= j < n
        ensures b.out[j] == Accumulated(s.irate, j)
      {
        if j < n - 1 {
          assert b.out[j] == prev.out[j];
        }
      }
    }
  }

  /** `BlockGenerator::process_block`: overwrites every element of the buffer
      in order, with the per-sample logic of `process` written out inline. */
  method ProcessBlock(s: Sawtooth, x: seq<real>) returns (s': Sawtooth, y: seq<real>)
    ensures |y| == |x|
    ensures RunsFor(Process, s, |x|)
    ensures Render(Process, s, |x|) == Block(y, s')
  {
    TotalRuns(Process, s, |x|);
    s', y := s, x;
    var i := 0;
    while i < |y|
      invariant 0 <= i <= |y| == |x|
      invariant RunsFor(Process, s, i)
      invariant Render(Process, s, i) == Block(y[..i], s')
    {
      TotalRuns(Process, s, i + 1);
      RenderStep(Process, s, i);
      y := y[i := s'.inc];
      var inc := s'.inc + s'.irate;
      if inc >= 1.0 {
        inc := inc - 2.0;
      }
      s' := s'.(inc := inc);
      i := i + 1;
    }
    assert y[..i] == y;
  }
}

=== FILE: sine.dfy ===
/** The sine oscillator: a fractional read index into a shared wavetable
    holding one period of a sine, with linear interpolation between adjacent
    entries and an index that wraps by one less than the table size. */
module Sine {
  import opened Generator

  /** `WAVETABLE_SIZE`: the number of wavetable entries, 1024 * 1024. */
  const WavetableSize: nat := 1024 * 1024

  /** The span by which the read index wraps: WAVETABLE_SIZE - 1, not
      WAVETABLE_SIZE. */
  const WrapSpan: real := (WavetableSize - 1) as real

  /** A table fit to be the shared wavetable: the right length, and every
      entry in [-1, 1], as every value of sin is. The entries themselves,
      sin(2 * pi * i / WAVETABLE_SIZE), are not modelled. */
  predicate IsWavetable(t: seq<real>)
  {
    |t| == WavetableSize && forall i :: 0 <= i < |t| ==> -1.0 <= t[i] <= 1.0
  }

  /** Oscillator state. `ind` is the fractional read index, `inc` the index
      increment per sample, f * WAVETABLE_SIZE / sampleRate, and `table` the
      shared wavetable handed to every instance. */
  datatype Sine = Sine(ind: real, inc: real, sampleRate: real, table: seq<real>)

  /** The states `process` can be called on: reading at `ind` stays inside
      the table. At an index of WAVETABLE_SIZE or beyond the source's table
      access panics. */
  predicate Indexable(s: Sine)
  {
    |s.table| == WavetableSize && s.ind < WavetableSize as real
  }

  /** The range the read index keeps under a non-negative increment of at
      most one wrap span per sample. */
  predicate Valid(s: Sine)
  {
    |s.table| == WavetableSize && 0.0 <= s.ind < WrapSpan && 0.0 <= s.inc <= WrapSpan
  }

  /** Conversion of a whole-valued float to `usize`: negative values saturate
      to 0 (values above the table size are never indexed with, since
      `Indexable` excludes them). */
  function ToIndex(k: int): nat
  {
    if k < 0 then 0 else k
  }

  /** The lower interpolation point `k`: the floor of the read index. */
  function Lower(ind: real): (k: nat)
    requires ind < WavetableSize as real
    ensures k < WavetableSize
    ensures 0.0 <= ind ==> k as real <= ind < k as real + 1.0
    ensures ind < 0.0 ==> k == 0
  {
    ToIndex(ind.Floor)
  }

  /** The upper interpolation point `k1`: the entry after `k`, or entry 0
      when `k` is the last entry. */
  function Upper(ind: real): (k1: nat)
    requires ind < WavetableSize as real
    ensures k1 < WavetableSize
    ensures ind < 0.0 ==> k1 == 0
  {
    if ind.Floor + 1 >= WavetableSize then 0 else ToIndex(ind.Floor + 1)
  }

  /** Linear interpolation of the table at a fractional index. */
  function Interpolate(table: seq<real>, ind: real): real
    requires |table| == WavetableSize && ind < WavetableSize as real
  {
    var k := Lower(ind);
    var g := ind - k as real;
    (1.0 - g) * table[k] + g * table[Upper(ind)]
  }

  /** The interpolation spelled out over the two points it reads. */
  lemma InterpolateAt(table: seq<real>, ind: real, k: nat, k1: nat, g: real)
    requires |table| == WavetableSize && ind < WavetableSize as real
    requires k == Lower(ind) && k1 == Upper(ind) && g == ind - k as real
    ensures Interpolate(table, ind) == (1.0 - g) * table[k] + g * table[k1]
  {
  }

  /** Advancing the read index by one increment, wrapping by `WrapSpan`. */
  function Advance(ind: real, inc: real): real
  {
    var i := ind + inc;
    if i >= WrapSpan then i - WrapSpan else i
  }

  /** `FreqMod::new`: a sine at frequency f reading `table` from index 0. */
  function New(f: real, sampleRate: real, table: seq<real>): (s: Sine)
    requires sampleRate != 0.0
    ensures s.ind == 0.0 && s.sampleRate == sampleRate && s.table == table
    ensures GetFrequency(s) == f
  {
    Sine(0.0, f * WavetableSize as real / sampleRate, sampleRate, table)
  }

  /** `FreqMod::set_frequency`: retunes without moving the read index. */
  function SetFrequency(s: Sine, f: real): (s': Sine)
    requires s.sampleRate != 0.0
    ensures s' == s.(inc := s'.inc)
    ensures GetFrequency(s') == f
  {
    s.(inc := f * WavetableSize as real / s.sampleRate)
  }

  /** `FreqMod::get_frequency`: the frequency the increment stands for. */
  function GetFrequency(s: Sine): real
  {
    s.inc * s.sampleRate / WavetableSize as real
  }

  /** Feeding the reported frequency back into `set_frequency` reproduces the
      increment exactly. */
  lemma GetThenSet(s: Sine)
    requires s.sampleRate != 0.0
    ensures SetFrequency(s, GetFrequency(s)) == s
  {
    var n := WavetableSize as real;
    assert GetFrequency(s) * n == s.inc * s.sampleRate;
  }

  /** `Sine` meets the laws of `FreqMod` at every non-zero sample rate,
      whichever table it reads. */
  lemma IsFreqMod(table: seq<real>)
    ensures FreqModLaws((f: real, sr: real) requires sr != 0.0 => New(f, sr, table),
                        SetFrequency, GetFrequency, (s: Sine) => s.sampleRate != 0.0)
  {
    forall s: Sine | s.sampleRate != 0.0
      ensures SetFrequency(s, GetFrequency(s)) == s
    {
      GetThenSet(s);
    }
  }

  /** A frequency up to half the sample rate gives a valid oscillator. */
  lemma NewValid(f: real, sampleRate: real, table: seq<real>)
    requires 0.0 < sampleRate && 0.0 <= f <= sampleRate / 2.0
    requires |table| == WavetableSize
    ensures Valid(New(f, sampleRate, table))
  {
    var n := WavetableSize as real;
    assert f * n / sampleRate <= (sampleRate / 2.0) * n / sampleRate;
  }

  /** Retuning a valid sine to a frequency up to half the sample rate keeps
      it valid, so the index bound of `RenderInRange` survives
      `set_frequency` mid-run. */
  lemma SetFrequencyValid(s: Sine, f: real)
    requires Valid(s) && 0.0 < s.sampleRate && 0.0 <= f <= s.sampleRate / 2.0
    ensures Valid(SetFrequency(s, f))
  {
    var n := WavetableSize as real;
    assert f * n / s.sampleRate <= (s.sampleRate / 2.0) * n / s.sampleRate;
  }

  /** The product of two non-negative reals is non-negative. */
  lemma MulNonneg(x: real, y: real)
    requires 0.0 <= x && 0.0 <= y
    ensures 0.0 <= x * y
  {
  }

  /** A weight in [0, 1] keeps a blend of two values in [-1, 1] in [-1, 1]. */
  lemma Convex(a: real, b: real, g: real)
    requires -1.0 <= a <= 1.0 && -1.0 <= b <= 1.0 && 0.0 <= g <= 1.0
    ensures -1.0 <= (1.0 - g) * a + g * b <= 1.0
  {
    MulNonneg(1.0 - g, 1.0 - a);
    MulNonneg(1.0 - g, a + 1.0);
    MulNonneg(g, 1.0 - b);
    MulNonneg(g, b + 1.0);
  }

  /** At a non-negative index the interpolation weight lies in [0, 1), so
      the interpolated value is a convex blend of two table entries. At a
      negative index, which the saturating cast sends to entry 0 twice,
      both points are entry 0 and the weight cancels out. Either way the
      value stays in [-1, 1] when the table does. */
  lemma InterpolateInRange(table: seq<real>, ind: real)
    requires |table| == WavetableSize && ind < WavetableSize as real
    ensures 0.0 <= ind ==> 0.0 <= ind - Lower(ind) as real < 1.0
    ensures ind < 0.0 ==> Interpolate(table, ind) == table[0]
    ensures IsWavetable(table) ==> -1.0 <= Interpolate(table, ind) <= 1.0
  {
    if ind < 0.0 {
      var g := ind;
      assert (1.0 - g) * table[0] + g * table[0] == table[0];
    } else if IsWavetable(table) {
      Convex(table[Lower(ind)], table[Upper(ind)], ind - Lower(ind) as real);
    }
  }

  /** `Generator::process`: emits the table interpolated at the read index,
      then advances the index by the increment, wrapping by `WrapSpan`. */
  function Process(s: Sine): (r: Step<Sine>)
    requires Indexable(s)
    ensures r.next == s.(ind := r.next.ind)
    ensures s.ind + s.inc < WrapSpan ==> r.next.ind == s.ind + s.inc
    ensures s.ind + s.inc >= WrapSpan ==> r.next.ind == s.ind + s.inc - WrapSpan
    ensures 0.0 <= s.ind < WrapSpan && 0.0 <= s.inc <= WrapSpan ==> 0.0 <= r.next.ind < WrapSpan
    ensures IsWavetable(s.table) ==> -1.0 <= r.out <= 1.0
    ensures s.ind < 0.0 ==> r.out == s.table[0]
    ensures 0.0 <= s.ind && s.ind == s.ind.Floor as real ==> r.out == s.table[s.ind.Floor]
  {
    InterpolateInRange(s.table, s.ind);
    Step(Interpolate(s.table, s.ind), s.(ind := Advance(s.ind, s.inc)))
  }

  /** Inside the wrap span the upper point is the next entry: the branch
      that takes `k1` back to 0 is reached exactly when the index lies in the
      last cell, [WAVETABLE_SIZE - 1, WAVETABLE_SIZE). */
  lemma UpperIsNext(ind: real)
    requires 0.0 <= ind < WavetableSize as real
    ensures ind < WrapSpan ==> Upper(ind) == Lower(ind) + 1
    ensures Upper(ind) == 0 <==> WrapSpan <= ind
  {
  }

  /** `Clone::clone`: same increment, sample rate and table, read index back
      at 0. */
  function Clone(s: Sine): (c: Sine)
    ensures c == s.(ind := 0.0)
    ensures GetFrequency(c) == GetFrequency(s)
    ensures |s.table| == WavetableSize ==> Process(c).out == s.table[0]
  {
    Sine(0.0, s.inc, s.sampleRate, s.table)
  }

  /** A clone is indistinguishable from a fresh oscillator at the source's
      frequency over the same table. */
  lemma CloneIsFresh(s: Sine)
    requires s.sampleRate != 0.0
    ensures Clone(s) == New(GetFrequency(s), s.sampleRate, s.table)
  {
    GetThenSet(s);
  }

  /** From a valid state every run stays inside the table, ends valid, and
      with a sine-like table emits only samples in [-1, 1]. */
  lemma RenderInRange(s: Sine, n: nat)
    requires Valid(s) && IsWavetable(s.table)
    ensures RunsFor(Process, s, n)
    ensures Valid(Render(Process, s, n).final)
    ensures forall i :: 0 <= i < n ==> -1.0 <= Render(Process, s, n).out[i] <= 1.0
  {
    var inv := t => Valid(t) && IsWavetable(t.table);
    var ok := y => -1.0 <= y <= 1.0;
    forall t | inv(t)
      ensures Indexable(t) && inv(Process(t).next) && ok(Process(t).out)
    {
    }
    InvariantRender(Process, inv, ok, s, n);
  }

  /** `BlockGenerator::process_block`: overwrites every element of the buffer
      in order, with the per-sample logic of `process` written out inline. It
      can be called exactly when that many `process` calls could. */
  method ProcessBlock(s: Sine, x: seq<real>) returns (s': Sine, y: seq<real>)
    requires RunsFor(Process, s, |x|)
    ensures |y| == |x|
    ensures Render(Process, s, |x|) == Block(y, s')
  {
    s', y := s, x;
    var i := 0;
    while i < |y|
      invariant 0 <= i <= |y| == |x|
      invariant RunsFor(Process, s, i)
      invariant Render(Process, s, i) == Block(y[..i], s')
    {
      RunsForPrefix(Process, s, i + 1, |x|);
      RenderStep(Process, s, i);
      ghost var step := Process(s');
      var k := s'.ind.Floor;
      var k1 := if k + 1 >= WavetableSize then 0 else ToIndex(k + 1);
      var k0 := ToIndex(k);
      assert k0 == Lower(s'.ind) && k1 == Upper(s'.ind);
      var g := s'.ind - k0 as real;
      var v := (1.0 - g) * s'.table[k0] + g * s'.table[k1];
      var ind := s'.ind + s'.inc;
      if ind >= WrapSpan {
        ind := ind - WrapSpan;
      }
      InterpolateAt(s'.table, s'.ind, k0, k1, g);
      assert v == Interpolate(s'.table, s'.ind);
      assert ind == Advance(s'.ind, s'.inc);
      assert step == Step(v, s'.(ind := ind));
      y := y[i := v];
      s' := s'.(ind := ind);
      assert y[..i + 1] == y[..i] + [v];
      i := i + 1;
    }
    assert y[..i] == y;
  }
}

=== FILE: square.dfy ===
/** The square oscillator: a sample counter compared against a half-period
    length, emitting +1 for the first half of each period and -1 for the
    second. */
module Square {
  import opened Generator

  /** Oscillator state. `ind` counts samples within the current period; `inv`
      is the half-period length in samples, sampleRate / (2 * f). */
  datatype Square = Square(sampleRate: real, ind: real, inv: real)

  /** The range the counter keeps once the half-period is at least half a
      sample (frequency at most the sample rate). */
  predicate Valid(s: Square)
  {
    0.5 <= s.inv && 0.0 <= s.ind < 2.0 * s.inv + 1.0
  }

  /** `FreqMod::new`: a square wave at frequency f, counter at 0. */
  function New(f: real, sampleRate: real): (s: Square)
    requires f != 0.0
    ensures s.sampleRate == sampleRate && s.ind == 0.0
    ensures sampleRate != 0.0 ==> s.inv != 0.0 && GetFrequency(s) == f
    ensures Process(s).out == 1.0
  {
    Square(sampleRate, 0.0, sampleRate / (2.0 * f))
  }

  /** `FreqMod::set_frequency`: retunes without touching the counter. */
  function SetFrequency(s: Square, f: real): (s': Square)
    requires f != 0.0
    ensures s' == s.(inv := s'.inv)
    ensures s.sampleRate != 0.0 ==> s'.inv != 0.0 && GetFrequency(s') == f
  {
    s.(inv := s.sampleRate / (2.0 * f))
  }

  /** `FreqMod::get_frequency`: the frequency the half-period stands for. */
  function GetFrequency(s: Square): real
    requires s.inv != 0.0
  {
    s.sampleRate / (2.0 * s.inv)
  }

  /** Feeding the reported frequency back into `set_frequency` reproduces the
      half-period exactly. */
  lemma GetThenSet(s: Square)
    requires s.sampleRate != 0.0 && s.inv != 0.0
    ensures GetFrequency(s) != 0.0
    ensures SetFrequency(s, GetFrequency(s)) == s
  {
    var f := GetFrequency(s);
    assert 2.0 * f * s.inv == s.sampleRate;
  }

  /** `Square` meets the laws of `FreqMod` at every non-zero sample rate. */
  lemma IsFreqMod()
    ensures FreqModLaws(New, SetFrequency, GetFrequency, (s: Square) => s.sampleRate != 0.0)
  {
    forall s: Square | s.sampleRate != 0.0 && s.inv != 0.0
      ensures SetFrequency(s, GetFrequency(s)) == s
    {
      GetThenSet(s);
    }
  }

  /** A frequency in (0, sampleRate] gives a valid oscillator. */
  lemma NewValid(f: real, sampleRate: real)
    requires 0.0 < f <= sampleRate
    ensures Valid(New(f, sampleRate))
  {
    assert sampleRate / (2.0 * f) >= f / (2.0 * f);
  }

  /** Whether the counter is in the second half of the period. */
  predicate Low(s: Square)
  {
    s.inv <= s.ind < 2.0 * s.inv
  }

  /** `Generator::process`: emits -1 in the second half-period and +1
      otherwise, judged before the wrap; then wraps the counter back by a full
      period once it has reached one, and counts one more sample. */
  function Process(s: Square): (r: Step<Square>)
    ensures r.out == 1.0 || r.out == -1.0
    ensures r.out == -1.0 <==> s.inv <= s.ind < 2.0 * s.inv
    ensures s.ind >= 2.0 * s.inv ==> r.out == 1.0
    ensures r.next == s.(ind := r.next.ind)
    ensures Valid(s) ==> Valid(r.next)
  {
    var y := if Low(s) then -1.0 else 1.0;
    var ind := if s.ind >= 2.0 * s.inv then s.ind - 2.0 * s.inv else s.ind;
    Step(y, s.(ind := ind + 1.0))
  }

  /** `Clone::clone`: same sample rate and half-period, counter back at 0. */
  function Clone(s: Square): (c: Square)
    ensures c == s.(ind := 0.0)
    ensures s.inv != 0.0 ==> GetFrequency(c) == GetFrequency(s)
    ensures Process(c).out == 1.0
  {
    Square(s.sampleRate, 0.0, s.inv)
  }

  /** A clone is indistinguishable from a fresh oscillator at the source's
      frequency. */
  lemma CloneIsFresh(s: Square)
    requires s.sampleRate != 0.0 && s.inv != 0.0
    ensures GetFrequency(s) != 0.0
    ensures Clone(s) == New(GetFrequency(s), s.sampleRate)
  {
    GetThenSet(s);
  }

  /** Every sample of every run is +1 or -1, and a run from a valid state
      stays valid. */
  lemma RenderInRange(s: Square, n: nat)
    requires Valid(s)
    ensures RunsFor(Process, s, n)
    ensures Valid(Render(Process, s, n).final)
    ensures forall i :: 0 <= i < n ==> Render(Process, s, n).out[i] in {1.0, -1.0}
  {
    InvariantRender(Process, Valid, y => y in {1.0, -1.0}, s, n);
  }

  /** Starting from a counter at 0, as long as the counter has not yet
      reached a full period (n <= 2 * inv) the j-th sample is +1 for j < inv
      and -1 for inv <= j: the first period of the closed-form square wave. */
  lemma {:induction false} FirstPeriod(s: Square, n: nat)
    requires s.ind == 0.0
    requires (n as real) <= 2.0 * s.inv
    ensures RunsFor(Process, s, n)
    ensures Render(Process, s, n).final == s.(ind := n as real)
    ensures forall j :: 0 <= j < n ==>
              Render(Process, s, n).out[j] == (if (j as real) < s.inv then 1.0 else -1.0)
    decreases n
  {
    TotalRuns(Process, s, n);
    if n > 0 {
      FirstPeriod(s, n - 1);
      RenderStep(Process, s, n - 1);
      var prev := Render(Process, s, n - 1);
      var b := Render(Process, s, n);
      assert b.out == prev.out + [Process(prev.final).out];
      forall j | 0 <= j < n
        ensures b.out[j] == (if (j as real) < s.inv then 1.0 else -1.0)
      {
        if j < n - 1 {
          assert b.out[j] == prev.out[j];
        }
      }
    }
  }

  /** Once the counter lies beyond a full period, as it does when
      `set_frequency` shortens the half-period under a counter that was in
      range, each step takes back only 2 * inv - 1 and the output stays +1
      until the counter is back inside the period: the first n samples are
      all +1 as long as the counter before the n-th step is still at or
      past 2 * inv. */
  lemma {:induction false} CatchUp(s: Square, n: nat)
    requires 0.5 <= s.inv
    requires n > 0 ==> s.ind + Accumulated(1.0 - 2.0 * s.inv, n - 1) >= 2.0 * s.inv
    ensures RunsFor(Process, s, n)
    ensures Render(Process, s, n).final == s.(ind := s.ind + Accumulated(1.0 - 2.0 * s.inv, n))
    ensures forall j :: 0 <= j < n ==> Render(Process, s, n).out[j] == 1.0
    decreases n
  {
    TotalRuns(Process, s, n);
    if n > 0 {
      if n > 1 {
        AccumulatedBetween(1.0 - 2.0 * s.inv, n - 2, n - 1);
      }
      CatchUp(s, n - 1);
      RenderStep(Process, s, n - 1);
      var prev := Render(Process, s, n - 1);
      var b := Render(Process, s, n);
      assert b.out == prev.out + [1.0];
      forall j | 0 <= j < n
        ensures b.out[j] == 1.0
      {
        if j < n - 1 {
          assert b.out[j] == prev.out[j];
        }
      }
    }
  }

  /** `set_frequency` does not keep `Valid`: a fresh 440 Hz square wave at
      48 kHz (half period 48000 / 880, about 54.5 samples) runs 100 samples,
      still inside its first period and valid, and is then retuned to
      4800 Hz (half period 5). Its counter of 100 is now far past the new
      10-sample period. */
  lemma RetuneLeavesValid()
    ensures RunsFor(Process, New(440.0, 48000.0), 100)
    ensures Valid(Render(Process, New(440.0, 48000.0), 100).final)
    ensures SetFrequency(Render(Process, New(440.0, 48000.0), 100).final, 4800.0) == Square(48000.0, 100.0, 5.0)
    ensures !Valid(Square(48000.0, 100.0, 5.0))
  {
    var s := New(440.0, 48000.0);
    assert s.inv == 48000.0 / 880.0;
    NewValid(440.0, 48000.0);
    RenderInRange(s, 100);
    FirstPeriod(s, 100);
  }

  /** What the retune of `RetuneLeavesValid` sounds like: the wave stays at
      +1 for 15 samples before its first -1, where a high half-period at
      4800 Hz is 5 samples. */
  lemma RetuneOvershoot()
    ensures RunsFor(Process, Square(48000.0, 100.0, 5.0), 16)
    ensures Render(Process, Square(48000.0, 100.0, 5.0), 16).out == seq(15, _ => 1.0) + [-1.0]
  {
    var t := Square(48000.0, 100.0, 5.0);
    TotalRuns(Process, t, 16);
    AccumulatedIsProduct(1.0 - 2.0 * t.inv, 10);
    AccumulatedIsProduct(1.0 - 2.0 * t.inv, 11);
    CatchUp(t, 11);
    var tail := Square(48000.0, 1.0, 5.0);
    assert Render(Process, t, 11).final == tail;
    TotalRuns(Process, tail, 5);
    assert Process(Square(48000.0, 1.0, 5.0)) == Step(1.0, Square(48000.0, 2.0, 5.0));
    assert Process(Square(48000.0, 2.0, 5.0)) == Step(1.0, Square(48000.0, 3.0, 5.0));
    assert Process(Square(48000.0, 3.0, 5.0)) == Step(1.0, Square(48000.0, 4.0, 5.0));
    assert Process(Square(48000.0, 4.0, 5.0)) == Step(1.0, Square(48000.0, 5.0, 5.0));
    assert Process(Square(48000.0, 5.0, 5.0)) == Step(-1.0, Square(48000.0, 6.0, 5.0));
    assert Render(Process, Square(48000.0, 5.0, 5.0), 1).out == [-1.0];
    assert Render(Process, Square(48000.0, 4.0, 5.0), 2).out == [1.0, -1.0];
    assert Render(Process, Square(48000.0, 3.0, 5.0), 3).out == [1.0, 1.0, -1.0];
    assert Render(Process, Square(48000.0, 2.0, 5.0), 4).out == [1.0, 1.0, 1.0, -1.0];
    assert Render(Process, tail, 5).out == [1.0, 1.0, 1.0, 1.0, -1.0];
    RenderSplit(Process, t, 11, 5);
  }

  /** `BlockGenerator::process_block`: overwrites every element of the buffer
      in order, with the per-sample logic of `process` written out inline. */
  method ProcessBlock(s: Square, x: seq<real>) returns (s': Square, y: seq<real>)
    ensures |y| == |x|
    ensures RunsFor(Process, s, |x|)
    ensures Render(Process, s, |x|) == Block(y, s')
  {
    TotalRuns(Process, s, |x|);
    s', y := s, x;
    var i := 0;
    while i < |y|
      invariant 0 <= i <= |y| == |x|
      invariant RunsFor(Process, s, i)
      invariant Render(Process, s, i) == Block(y[..i], s')
    {
      TotalRuns(Process, s, i + 1);
      RenderStep(Process, s, i);
      y := y[i := if s'.ind >= s'.inv && s'.ind < 2.0 * s'.inv then -1.0 else 1.0];
      var ind := s'.ind;
      if ind >= 2.0 * s'.inv {
        ind := ind - 2.0 * s'.inv;
      }
      s' := s'.(ind := ind + 1.0);
      i := i + 1;
    }
    assert y[..i] == y;
  }
}

=== FILE: triangle.dfy ===
/** The triangle oscillator: an accumulator that moves by a signed rate per
    sample and is reflected back whenever it reaches 1 or -1, the rate's
    sign flipping with each reflection. */
module Triangle {
  import opened Generator

  /** Oscillator state. `irate` is the signed per-sample increment
      4 * f / sampleRate, negated at every reflection; `inc` is the
      accumulator, which is the next sample to be emitted. */
  datatype Triangle = Triangle(sampleRate: real, irate: real, inc: real)

  /** The range the accumulator keeps once the frequency is at most half the
      sample rate (|irate| <= 2). */
  predicate Valid(s: Triangle)
  {
    -2.0 <= s.irate <= 2.0 && -1.0 <= s.inc <= 1.0
  }

  /** `FreqMod::new`: a triangle wave at frequency f, starting at 0 and
      rising when f is positive. */
  function New(f: real, sampleRate: real): (s: Triangle)
    requires sampleRate != 0.0
    ensures s.sampleRate == sampleRate
    ensures GetFrequency(s) == f
    ensures Process(s).out == 0.0
  {
    Triangle(sampleRate, 4.0 * f / sampleRate, 0.0)
  }

  /** `FreqMod::set_frequency`: overwrites the rate with the sign of f,
      whichever way the wave is currently moving, and leaves the accumulator
      alone. */
  function SetFrequency(s: Triangle, f: real): (s': Triangle)
    requires s.sampleRate != 0.0
    ensures s' == s.(irate := s'.irate)
    ensures GetFrequency(s') == f
    ensures 0.0 < s.sampleRate ==> (0.0 < s'.irate <==> 0.0 < f)
  {
    s.(irate := 4.0 * f / s.sampleRate)
  }

  /** `FreqMod::get_frequency`: the frequency the rate stands for, signed
      like the rate. */
  function GetFrequency(s: Triangle): real
    requires s.sampleRate != 0.0
  {
    s.irate / (4.0 / s.sampleRate)
  }

  /** Feeding the reported frequency back into `set_frequency` reproduces the
      rate exactly. */
  lemma GetThenSet(s: Triangle)
    requires s.sampleRate != 0.0
    ensures SetFrequency(s, GetFrequency(s)) == s
  {
    var q := 4.0 / s.sampleRate;
    assert GetFrequency(s) * q == s.irate;
    assert 4.0 * GetFrequency(s) / s.sampleRate == GetFrequency(s) * q;
  }

  /** `Triangle` meets the laws of `FreqMod` at every non-zero sample rate. */
  lemma IsFreqMod()
    ensures FreqModLaws(New, SetFrequency, GetFrequency, (s: Triangle) => s.sampleRate != 0.0)
  {
    forall s: Triangle | s.sampleRate != 0.0
      ensures SetFrequency(s, GetFrequency(s)) == s
    {
      GetThenSet(s);
    }
  }

  /** A frequency between 0 and half the sample rate gives a valid
      oscillator. */
  lemma NewValid(f: real, sampleRate: real)
    requires 0.0 < sampleRate && 0.0 <= f <= sampleRate / 2.0
    ensures Valid(New(f, sampleRate))
  {
    assert 4.0 * f / sampleRate <= 4.0 * (sampleRate / 2.0) / sampleRate;
  }

  /** Retuning a valid triangle to a frequency of either sign and of
      magnitude at most half the sample rate keeps it valid, so the range of
      `RenderInRange` survives `set_frequency` mid-run. */
  lemma SetFrequencyValid(s: Triangle, f: real)
    requires Valid(s) && 0.0 < s.sampleRate && -s.sampleRate / 2.0 <= f <= s.sampleRate / 2.0
    ensures Valid(SetFrequency(s, f))
  {
    assert 4.0 * f / s.sampleRate <= 4.0 * (s.sampleRate / 2.0) / s.sampleRate;
    assert 4.0 * (-s.sampleRate / 2.0) / s.sampleRate <= 4.0 * f / s.sampleRate;
  }

  /** `Generator::process`: emits the accumulator as it was before the step,
      then adds the rate; at or past 1 (resp. -1) it reflects the accumulator
      about that bound and reverses the rate. */
  function Process(s: Triangle): (r: Step<Triangle>)
    ensures r.out == s.inc
    ensures r.next.sampleRate == s.sampleRate
    ensures var x := s.inc + s.irate;
            if x >= 1.0 then r.next.inc - 1.0 == 1.0 - x && r.next.irate == -s.irate
            else if x <= -1.0 then r.next.inc + 1.0 == -1.0 - x && r.next.irate == -s.irate
            else r.next.inc == x && r.next.irate == s.irate
    ensures s.sampleRate != 0.0 ==>
              GetFrequency(r.next) == GetFrequency(s) || GetFrequency(r.next) == -GetFrequency(s)
    ensures Valid(s) ==> Valid(r.next)
  {
    var x := s.inc + s.irate;
    if x >= 1.0 || x <= -1.0 then
      Step(s.inc, s.(irate := -s.irate, inc := if x >= 1.0 then 2.0 - x else -2.0 - x))
    else
      Step(s.inc, s.(inc := x))
  }

  /** `Clone::clone`: same sample rate and rate (including its current
      direction), accumulator back at 0. */
  function Clone(s: Triangle): (c: Triangle)
    ensures c == s.(inc := 0.0)
    ensures s.sampleRate != 0.0 ==> GetFrequency(c) == GetFrequency(s)
    ensures Process(c).out == 0.0
  {
    Triangle(s.sampleRate, s.irate, 0.0)
  }

  /** A clone is indistinguishable from a fresh oscillator at the source's
      current (signed) frequency. */
  lemma CloneIsFresh(s: Triangle)
    requires s.sampleRate != 0.0
    ensures Clone(s) == New(GetFrequency(s), s.sampleRate)
  {
    GetThenSet(s);
  }

  /** `process` only ever negates the rate: along any run the magnitude of
      the rate, and with it of the reported frequency, stays put. */
  lemma {:induction false} RateMagnitudeKept(s: Triangle, n: nat)
    ensures RunsFor(Process, s, n)
    ensures var t := Render(Process, s, n).final;
            t.sampleRate == s.sampleRate && (t.irate == s.irate || t.irate == -s.irate)
    decreases n
  {
    TotalRuns(Process, s, n);
    if n > 0 {
      RateMagnitudeKept(Process(s).next, n - 1);
    }
  }

  /** Every sample of every run from a valid state lies in [-1, 1]. */
  lemma RenderInRange(s: Triangle, n: nat)
    requires Valid(s)
    ensures RunsFor(Process, s, n)
    ensures Valid(Render(Process, s, n).final)
    ensures forall i :: 0 <= i < n ==> -1.0 <= Render(Process, s, n).out[i] <= 1.0
  {
    InvariantRender(Process, Valid, y => -1.0 <= y <= 1.0, s, n);
  }

  /** Starting from 0, the first n samples are the straight ramp 0, irate,
      2 * irate, ... (see `AccumulatedIsProduct`) for a rate of either sign,
      as long as n * irate stays strictly between -1 and 1: the first quarter
      period of the closed-form triangle wave, rising or falling, before any
      reflection. */
  lemma {:induction false} Rise(s: Triangle, n: nat)
    requires s.inc == 0.0
    requires -1.0 < Accumulated(s.irate, n) < 1.0
    ensures RunsFor(Process, s, n)
    ensures Render(Process, s, n).final == s.(inc := Accumulated(s.irate, n))
    ensures forall j :: 0 <= j < n ==> Render(Process, s, n).out[j] == Accumulated(s.irate, j)
    decreases n
  {
    TotalRuns(Process, s, n);
    if n > 0 {
      AccumulatedBetween(s.irate, n - 1, n);
      Rise(s, n - 1);
      RenderStep(Process, s, n - 1);
      var prev := Render(Process, s, n - 1);
      var b := Render(Process, s, n);
      assert b.out == prev.out + [Accumulated(s.irate, n - 1)];
      forall j | 0 <= j < n
        ensures b.out[j] == Accumulated(s.irate, j)
      {
        if j < n - 1 {
          assert b.out[j] == prev.out[j];
        }
      }
    }
  }

  /** `BlockGenerator::process_block`: overwrites every element of the buffer
      in order, with the per-sample logic of `process` written out inline. */
  method ProcessBlock(s: Triangle, x: seq<real>) returns (s': Triangle, y: seq<real>)
    ensures |y| == |x|
    ensures RunsFor(Process, s, |x|)
    ensures Render(Process, s, |x|) == Block(y, s')
  {
    TotalRuns(Process, s, |x|);
    s', y := s, x;
    var i := 0;
    while i < |y|
      invariant 0 <= i <= |y| == |x|
      invariant RunsFor(Process, s, i)
      invariant Render(Process, s, i) == Block(y[..i], s')
    {
      TotalRuns(Process, s, i + 1);
      RenderStep(Process, s, i);
      y := y[i := s'.inc];
      var inc := s'.inc + s'.irate;
      var irate := s'.irate;
      if inc >= 1.0 || inc <= -1.0 {
        irate := -irate;
        inc := if inc >= 1.0 then 2.0 - inc else -2.0 - inc;
      }
      s' := s'.(irate := irate, inc := inc);
      i := i + 1;
    }
    assert y[..i] == y;
  }
}

=== FILE: zero.dfy ===
/** The zero generator: a stateless source of silence. */
module Zero {
  import opened Generator

  /** The generator has no fields. */
  datatype Zero = Zero

  /** `Zero::new`. */
  function New(): Zero
  {
    Zero
  }

  /** `Generator::process`: the additive identity, and no change of state. */
  function Process(z: Zero): (r: Step<Zero>)
    ensures r.out == 0.0
    ensures r.next == z
  {
    Step(0.0, z)
  }

  /** Any number of `process` calls yields only zeros and leaves the
      generator as it was. */
  lemma {:induction false} Silence(z: Zero, n: nat)
    ensures RunsFor(Process, z, n)
    ensures Render(Process, z, n).final == z
    ensures forall i :: 0 <= i < n ==> Render(Process, z, n).out[i] == 0.0
    decreases n
  {
    TotalRuns(Process, z, n);
    if n > 0 {
      Silence(z, n - 1);
      var rest := Render(Process, z, n - 1);
      forall i | 0 <= i < n
        ensures Render(Process, z, n).out[i] == 0.0
      {
        if i > 0 {
          assert Render(Process, z, n).out[i] == rest.out[i - 1];
        }
      }
    }
  }

  /** `BlockGenerator::process_block`: sets every element of the buffer to 0. */
  method ProcessBlock(z: Zero, x: seq<real>) returns (z': Zero, y: seq<real>)
    ensures |y| == |x|
    ensures forall i :: 0 <= i < |y| ==> y[i] == 0.0
    ensures z' == z
    ensures RunsFor(Process, z, |x|)
    ensures Render(Process, z, |x|) == Block(y, z')
  {
    Silence(z, |x|);
    z', y := z, x;
    var i := 0;
    while i < |y|
      invariant 0 <= i <= |y| == |x|
      invariant y[..i] == seq(i, _ => 0.0)
    {
      y := y[i := 0.0];
      i := i + 1;
    }
    assert y == y[..i];
  }

  /** Running `process_block` again, from the state the first call left the
      generator in, produces the same block again: the block operation is
      idempotent. This is a consequence of statelessness alone: `Zero` has a
      single value, so every run ends where it started. */
  lemma {:induction false} BlockIdempotent(z: Zero, x: seq<real>)
    ensures RunsFor(Process, z, |x|)
    ensures RunsFor(Process, Render(Process, z, |x|).final, |x|)
    ensures Render(Process, Render(Process, z, |x|).final, |x|) == Render(Process, z, |x|)
  {
    Silence(z, |x|);
  }
}
